=== FILE: README.md ===
# Habit tracker: streak analyser and habit store

This project models the core of a small command-line habit tracker. Users
create habits, and a habit tracker logs completions into a two-table
store. The analyser computes the longest run of completions one whole day
apart, for one habit and across all habits.

The modules follow the program's files:

- `Timestamps` (timestamps.dfy) covers the timestamp arithmetic the
  analyser relies on:
  - timestamps are integer seconds;
  - `(b - a).days` is `WholeDays`, a floor division by 86400;
  - `sorted` is modelled by an insertion sort; an ascending order is unique
    (`SortedUnique`), so the result is the same.
- `Streak` (streak.dfy) holds the streak rule. It gives two reference
  definitions: a recursive one (`LongestRun`) and a direct one (`IsLongestRun`,
  the longest segment whose adjacent pairs are one whole day apart). A lemma
  proves the two agree. It also holds the pairwise loop both analysers run
  (`LongestStreakOf`), verified against them.
- `Store` (store.dfy) represents the `habits` and `progress_log` tables as
  one immutable value, with their AUTOINCREMENT counters. A flag says whether
  the schema declares habit names `UNIQUE`.
- `Counter` (counter.py → counter.dfy) models the tracker and its four store
  operations as functions from a store to a result.
- `Db` (db.py → db.dfy) models the three read queries, and the joined,
  ordered `SELECT tracked_at` both analysers issue.
- `Analyse` (analyse.py) is the analyser the front end calls: it sorts again
  before walking.
- `ProjectAnalyse` (Project/analyse.py) is the Project/ copy of the
  analyser: it walks in query order and adds the maximum over all habits.
- `Cli` (main.py) covers the duplicate-name guard of "Create Habit" and the
  argmax of "Longest streak of all habits".

I/O, the clock and user input become parameters: a `now` timestamp, the
typed name, description and periodicity. A store operation returns the new
store instead of committing.

### Two rules worth spelling out

The model follows the code in both places.

- **Same-day repeats.** A calendar-day rule, in which several logs on one day
  count once, would give 2 for `[day 1 10:00, day 1 18:00, day 2 09:00]`. The
  code compares `(b - a).days == 1`: any pair less than 24 hours apart resets
  the run, so the same input gives 1 (`Streak.SameDayRepeatResets`). A pair
  extends a run exactly when it is at least 24 and less than 48 hours apart
  (`Timestamps.NextDayWindow`).
- **Unique names.** The test schema (Project/test_project.py:15) declares
  habit names `UNIQUE`; the application's schema (db.py:16-22) does not.
  preload.db.py:15 declares `UNIQUE` too, but it never takes effect:
  `initialize_database` creates the table first. The store therefore carries the `uniqueNames` flag. Under the
  application schema, saving a second habit with an existing name inserts a
  second row.

## Model

| member | source | states |
|---|---|---|
| Timestamps.WholeDays | analyse.py:42 | `(b - a).days` is the whole number of days in the difference, rounded down: `d` days means at least `d` and fewer than `d + 1` days of seconds |
| Timestamps.NextDayWindow | analyse.py:42 | `.days == 1` holds exactly when the later stamp is at least 24 h and under 48 h after the earlier; the calendar plays no part |
| Timestamps.Insert | analyse.py:31 | inserting into an ascending sequence gives an ascending sequence with one more copy of the element |
| Timestamps.Sort | analyse.py:31 | `sorted` returns an ascending permutation of its input |
| Timestamps.SortedUnique | analyse.py:31 | two ascending sequences with the same elements are equal, so the sorted order is unique |
| Timestamps.SortKeepsSorted | analyse.py:31 | sorting an already ascending sequence changes nothing |
| Timestamps.SortIgnoresOrder | analyse.py:31 | any two rearrangements of the same timestamps sort to the same sequence |
| Streak.TrailingRun | analyse.py:39-48 | the run ending at the last timestamp is 0 only for the empty sequence and never exceeds its length |
| Streak.LongestRun | analyse.py:27-50 | the recursive reference streak: 0 for no timestamps, between 1 and the count otherwise, and at least the final run |
| Streak.TrailingRunIsLongestSuffix | analyse.py:42-48 | the current run is a chained suffix, and no longer chained suffix exists |
| Streak.LongestRunIsLongestSegment | analyse.py:36-50 | the recursive streak is the length of a longest segment whose adjacent pairs are one whole day apart |
| Streak.LongestRunUnique | analyse.py:36-50 | only one value satisfies that characterisation |
| Streak.LongestStreakOf | analyse.py:36-50 | the pairwise walk with a current and a maximum run returns the longest chained segment's length |
| Streak.TrailingRunAfterBreak | analyse.py:45-48 | after a pair not one whole day apart, the current run restarts and ignores everything before |
| Streak.BreakSplitsStreak | analyse.py:45-48 | a break splits the streak: the whole sequence's streak is the larger of the two sides' |
| Streak.DailyStreak | Project/test_project.py:81-99 | `n` completions exactly 24 h apart give streak `n` (two consecutive days give 2) |
| Streak.SameDayRepeatResets | analyse.py:42-48 | two logs on one day and a third the next morning give streak 1 |
| Streak.GapBreaksRunExample | analyse.py:45-48 | days 1, 2, 5, 6, 7 give 3: the gap closes the first run |
| Streak.FinalRunCountedExample | analyse.py:50 | days 1, 3, 4, 5 give 3: the run still open at the end is counted |
| Store.EmptyStore | db.py:15-33 | freshly created tables are empty and consistent |
| Store.Filter | counter.py:89-95 | a `WHERE` filter keeps exactly the rows it accepts and never adds rows |
| Store.CountFor | Project/test_project.py:52-53 | `COUNT(*) WHERE habit_id = ?` is 0 exactly when no row carries that id |
| Store.CountAfterAppend | counter.py:69-75 | one inserted event raises its own habit's count by one and leaves every other count alone |
| Store.Unlinked | counter.py:89-95 | deleting by `habit_id` keeps exactly the other rows and leaves none with that id |
| Store.UnlinkedIdempotent | counter.py:89-95 | deleting by `habit_id` twice is deleting once |
| Counter.NewTracker | counter.py:20-34 | a new tracker carries the given name, description and periodicity, the given `habit_id` (default None), and the clock reading as its creation date |
| Counter.Save | counter.py:36-52 | one row carrying the tracker's fields is appended under the next AUTOINCREMENT id, which the tracker then takes; the habits counter advances by one and the progress counter stays; existing rows stay; only a `UNIQUE` schema rejects a taken name |
| Counter.LogProgress | counter.py:54-76 | without an id: `ValueError`, nothing written; otherwise one event under the next AUTOINCREMENT id with the tracker's id and the given time or `now`; the progress counter advances by one, habits and their counter untouched, counts change only for that id |
| Counter.ClearProgress | counter.py:78-96 | without an id: `ValueError`; otherwise exactly the events with the id are removed, habits and AUTOINCREMENT counters untouched |
| Counter.DeleteFromDatabase | counter.py:98-111 | without an id: `ValueError`; otherwise exactly the habit rows with that id and the events carrying it are removed, the other rows keep their order, and both AUTOINCREMENT counters are unchanged |
| Store.OtherHabits | counter.py:109 | `DELETE FROM habits WHERE id = ?` keeps exactly the other rows and keeps ids and names distinct |
| Counter.ClearProgressIdempotent | counter.py:85-96 | clearing twice equals clearing once |
| Counter.DeleteClearsProgress | counter.py:105-111 | deleting removes from the log exactly what clearing removes |
| Counter.NewTrackerIsUnsaved | counter.py:20-34 | a tracker built without an id has `habit_id` None and cannot log, clear or delete |
| Counter.SaveTwiceInsertsTwice | counter.py:36-52 | saving the same tracker twice without `UNIQUE` inserts two rows with one name and two ids: no upsert |
| Counter.SaveTwiceRejectedWhenUnique | counter.py:44-50 | with the test schema's `UNIQUE` names, the second save fails |
| Counter.LogThenClearScenario | Project/test_project.py:44-67 | save, log once: count 1; clear: count 0 |
| Counter.SaveThenDeleteScenario | Project/test_project.py:69-79 | save then delete: no row has the name any more |
| Db.FetchAllHabitNames | db.py:48-50 | one name per habit row, in row order; a name is listed exactly when some row has it |
| Db.FetchHabitsByPeriodicity | db.py:63-65 | one name per row with that periodicity, in row order (so a name on two such rows appears twice); a name appears exactly when such a row has it; a sub-multiset of all names |
| Db.FirstNamed | db.py:79-80 | `fetchone` yields the first row with the name, or nothing when none has it |
| Db.GetHabitTracker | db.py:78-83 | None exactly when no row has the name; otherwise the row's name, description and periodicity, `habit_id` set to the row's creation-date text, creation date re-stamped to `now`; the id matches no habit row |
| Db.Joined | analyse.py:18-24 | the join keeps exactly the events whose `habit_id` is the id of a habit with that name |
| Db.CompletionTimes | Project/analyse.py:16-24 | the joined events' times, each as often as it is logged, in ascending order; a time appears exactly when a joined event carries it; an unknown name gives none |
| Db.CompletionTimesSkipUnjoined | Project/analyse.py:18-21 | an event that joins no habit of the name leaves its completion times unchanged |
| Db.CompletionTimesAddJoined | Project/analyse.py:18-21 | an event that joins adds exactly its time to the name's completion times |
| Db.SavedHabitIsListed | Project/test_project.py:117-124 | a saved habit's name is listed |
| Db.SavedHabitIsFound | Project/test_project.py:142-150 | a habit saved under a new name is found under that name, with the saved creation date as its `habit_id` and not the row id |
| Db.FetchedTrackerLogIsNotCounted | db.py:82 | logging through a fetched tracker changes no habit's completion times |
| Db.FetchedTrackerDeleteKeepsHabits | db.py:82 | deleting through a fetched tracker removes no habit row |
| Db.FetchedTrackerClearKeepsTimes | db.py:82 | "Reset Habit" through a fetched tracker changes no habit's completion times |
| Db.GetHabitTrackerIntended | db.py:78-83 | the corrected lookup: as above, but the tracker carries the row's id |
| Db.IntendedTrackerLogIsCounted | db.py:82 | with the corrected lookup, a logged completion adds its time to the habit's completion times |
| Db.IntendedTrackerClearEmptiesTimes | db.py:82 | with the corrected lookup and unique names, "Reset Habit" leaves the habit with no completion times |
| Db.IntendedTrackerDeleteRemovesHabit | db.py:82 | with the corrected lookup and unique names, delete removes the name and all its completion times |
| Analyse.ComputeLongestStreak | analyse.py:5-50 | 0 exactly when no event joins; otherwise the longest chained segment of the sorted times, between 1 and the event count; 0 for an unknown name |
| Analyse.SortedStreakIgnoresOrder | analyse.py:31 | the sorting analyser's result does not depend on the order the rows arrive in |
| ProjectAnalyse.ComputeLongestStreak | Project/analyse.py:4-41 | 0 exactly when no event joins; otherwise the longest chained segment of the times in query order, at most the event count; 0 for an unknown name |
| ProjectAnalyse.AgreesWithSortingAnalyser | Project/analyse.py:22 | on the ascending order the query returns, the non-sorting analyser equals the sorting one |
| ProjectAnalyse.ComputeLongestStreakOverall | Project/analyse.py:43-60 | 0 without habits; otherwise at least every habit's streak and equal to one of them |
| ProjectAnalyse.LongestOfListed | Project/analyse.py:54-60 | the `max` fold over a listing of all habit names gives the overall longest streak |
| ProjectAnalyse.IsOverallUnique | Project/analyse.py:53-60 | the overall value is determined by the habits' streaks |
| ProjectAnalyse.TwoHabitsOverall | Project/analyse.py:56-58 | with two habits, the overall value is the larger of the two streaks |
| ProjectAnalyse.ExampleYogaStreak | Project/test_project.py:105-108 | completions two days and one day before now give streak 2 |
| ProjectAnalyse.OverallLongestExample | Project/test_project.py:101-115 | streaks 2 and 1 give overall 2 |
| Cli.CreateHabit | main.py:40-59 | an existing name is refused and nothing is written; otherwise one row with the typed fields and creation date `now` is appended under the next AUTOINCREMENT id, the habits counter advances by one, the progress counter, the log and the schema flag stay; a duplicate name can never make the save fail |
| Cli.CreateHabitKeepsNamesDistinct | main.py:44-45 | under the guard, names stay distinct even without a `UNIQUE` schema |
| Cli.CreateHabitTwiceCreatesOnce | main.py:44-45 | asking twice for a new name creates it once and then reports it exists |
| Cli.LongestStreakOfAll | main.py:105-116 | the reported length is the overall longest streak; the name is `""` when it is 0, otherwise the first listed habit with that streak |
| Cli.FirstHolderOfListed | main.py:106-114 | the strict `>` fold keeps the first habit reaching the maximum |
| Cli.FirstHolderUnique | main.py:112 | the first holder of a streak is one determined row |

## Left out

- The `questionary` prompts, the menu loop and every `print` (main.py): they
  are I/O. The user's answers are parameters. Only the guard and the argmax
  are modelled from main.py.
- Connecting to SQLite, `CREATE TABLE`, cursors and `commit` (db.py:4-36).
  The store value replaces them. `initialize_database` is modelled only as
  `Store.EmptyStore`.
- preload.db.py: it loads sample data and is not part of this model.
- `strftime` and `strptime`: timestamps are integer seconds. Ordering stored
  texts chronologically is taken as what `ORDER BY tracked_at` does.
- The clock (`datetime.now()` at counter.py:34 and 67): it is the `now`
  parameter.
- ProjectAnalyse.ComputeLongestStreak: relies on `CompletionTimes` being in
  ascending order, i.e. on the store honouring `ORDER BY`. A misordered
  result set is not modelled.
- SQLite's 64-bit row-id limit: ids are unbounded integers.
- A `NULL` description: descriptions are always strings.
- Id reuse under the test schema's plain `INTEGER PRIMARY KEY`: ids always
  come from the AUTOINCREMENT counter.
- The `FOREIGN KEY` clause: SQLite does not enforce it by default, so events
  may carry any `habit_id`, as the model allows.
- Counter.Save: does not model other insert failures, such as a `NOT NULL`
  violation or a locked database. Its only failure is a taken name under a
  `UNIQUE` schema.
- Cli.CreateHabit: a cancelled prompt (`ask()` returning None) is not
  modelled; the typed answers are strings. Such a None name, or a locked
  database, would make the save raise and reach main.py:58-59's `except`.
  The model's only save failure, a duplicate name, is ruled out by the
  guard.
- Db.FetchAllHabitNames: `SELECT name FROM habits` has no `ORDER BY`, so
  SQL promises no order. The listing is taken to be in row (insertion)
  order, and `Cli.LongestStreakOfAll`'s "first holder" is defined by that
  order. Under the test schema's `UNIQUE` index, SQLite may list the names
  in name order instead.
- A calendar-day streak rule: the code does not implement it (see above).
- The increment, reset and delete menu entries of main.py: they are outside
  the modelled part of main.py. Their effect through a fetched tracker is
  covered by the finding below: one lemma each for log, clear and delete.

## Findings

| source | as written | input that shows it | evidently intended | confidence | as-written member | corrected member |
|---|---|---|---|---|---|---|
| db.py:82 | `HabitTracker(*habit_data[1:])` passes name, description, periodicity and creation_date positionally, so the creation-date text lands in the `habit_id` parameter (counter.py:20) | a store holding habit row `(1, "Read", "", "Daily", "2024-01-01 10:00:00")`; `get_habit_tracker(db, "Read")` returns a tracker whose `habit_id` is `"2024-01-01 10:00:00"`; `log_progress` on it stores an event that joins no habit, `clear_progress` removes none of its completions, and `delete_from_database` removes no habit row | the tracker carries the row's integer id, e.g. `HabitTracker(*habit_data[1:4], habit_id=habit_data[0])` | high (not executed) | Db.GetHabitTracker, Db.FetchedTrackerLogIsNotCounted, Db.FetchedTrackerClearKeepsTimes, Db.FetchedTrackerDeleteKeepsHabits | Db.GetHabitTrackerIntended, Db.IntendedTrackerLogIsCounted, Db.IntendedTrackerClearEmptiesTimes, Db.IntendedTrackerDeleteRemovesHabit |

The guard in `Cli.CreateHabit` calls the as-written `Db.GetHabitTracker`. It
only asks whether a tracker comes back. The as-written and corrected lookups
agree on that: both return nothing exactly when no row has the name.

=== FILE: analyse.dfy ===
/**
 analyse.py: the analyser the command-line front end calls. It reads the
 joined completion times of a habit name and sorts them again before the
 pairwise walk.
 */
module Analyse {
  import opened Timestamps
  import opened Streak
  import opened Store
  import opened Db

  /** `compute_longest_streak`: 0 for no completions, otherwise the longest
      run of the sorted completion times. */
  method ComputeLongestStreak(s: Store, habitName: string) returns (longest: nat)
    ensures longest == LongestRun(Sort(CompletionTimes(s, habitName)))
    ensures IsLongestRun(Sort(CompletionTimes(s, habitName)), longest)
    ensures longest == 0 <==> |CompletionTimes(s, habitName)| == 0
    ensures longest <= |CompletionTimes(s, habitName)|
    ensures !NameTaken(s.habits, habitName) ==> longest == 0
  {
    var completionDates := CompletionTimes(s, habitName);
    if |completionDates| == 0 {
      LongestRunIsLongestSegment(Sort(completionDates));
      return 0;
    }
    var dates := Sort(completionDates);
    assert |dates| == |multiset(dates)| == |completionDates|;
    longest := LongestStreakOf(dates);
  }

  /** Because it sorts first, the analyser's streak depends only on which
      timestamps were read, never on the order they arrived in. */
  lemma SortedStreakIgnoresOrder(a: seq<Timestamp>, b: seq<Timestamp>)
    requires multiset(a) == multiset(b)
    ensures LongestRun(Sort(a)) == LongestRun(Sort(b))
  {
    SortIgnoresOrder(a, b);
  }
}

=== FILE: cli.dfy ===
/**
 The two pieces of main.py's menu that carry logic of their own: the
 duplicate-name guard of "Create Habit" and the search for the habit with the
 longest streak under "Analyze Habits". Prompts and printing are left out;
 the answers the user would type arrive as parameters.
 */
module Cli {
  import opened Timestamps
  import opened Store
  import opened Counter
  import opened Db
  import Analyse
  import opened ProjectAnalyse

  /** The two answers the periodicity prompt accepts; it asks again on any
      other, so no other value reaches the tracker. */
  datatype Periodicity = Daily | Weekly

  function PeriodicityText(p: Periodicity): string
  {
    match p
    case Daily => "Daily"
    case Weekly => "Weekly"
  }

  /** What "Create Habit" reports: the name was found, the habit was saved,
      or saving raised (the `except` branch). */
  datatype CreateOutcome = AlreadyExists | Created | SaveFailed(error: Error)

  /** `create_habit`: a name `get_habit_tracker` finds is refused and nothing
      is written; otherwise a new tracker, created at `now`, is saved. The
      guard runs before the insert, so a duplicate name can never make the
      save fail. The store's other insert failures (a `NULL` from a cancelled
      prompt, a locked database) would reach the `except` branch; `Save` does
      not model them, so here no failure is left. */
  function CreateHabit(s: Store, name: string, description: string, periodicity: Periodicity, now: Timestamp): (r: (CreateOutcome, Store))
    ensures r.0 == AlreadyExists <==> NameTaken(s.habits, name)
    ensures r.0 == AlreadyExists ==> r.1 == s
    ensures !r.0.SaveFailed?
    ensures r.0 == Created ==>
              && |r.1.habits| == |s.habits| + 1
              && r.1.habits[..|s.habits|] == s.habits
              && r.1.progress == s.progress
              && r.1.uniqueNames == s.uniqueNames
              && r.1.lastHabitId == s.lastHabitId + 1
              && r.1.lastProgressId == s.lastProgressId
              && var row := r.1.habits[|s.habits|];
                 && row.id == r.1.lastHabitId
                 && row.name == name
                 && row.description == description
                 && row.periodicity == PeriodicityText(periodicity)
                 && row.creationDate == now
    ensures Valid(s) ==> Valid(r.1)
  {
    if GetHabitTracker(s, name, now).Some? then (AlreadyExists, s)
    else
      var tracker := NewTracker(now, name, description, PeriodicityText(periodicity));
      match Save(tracker, s)
      case Ok((_, s')) => (Created, s')
      case Fail(e) => (SaveFailed(e), s)
  }

  /** The guard keeps names distinct even under the application schema, which
      does not declare them `UNIQUE`, as long as habits enter only through
      "Create Habit". */
  lemma CreateHabitKeepsNamesDistinct(s: Store, name: string, description: string, periodicity: Periodicity, now: Timestamp)
    requires NamesDistinct(s.habits)
    ensures NamesDistinct(CreateHabit(s, name, description, periodicity, now).1.habits)
  {
    var r := CreateHabit(s, name, description, periodicity, now);
    if r.0 == Created {
      var hs := r.1.habits;
      var n := |s.habits|;
      forall i, j | 0 <= i < j < |hs|
        ensures hs[i].name != hs[j].name
      {
        assert hs[i] == s.habits[i];
        if j < n {
          assert hs[j] == s.habits[j];
        } else {
          assert s.habits[i] in s.habits;
        }
      }
    }
  }

  /** Asking twice for the same name creates one habit: the second request
      finds the first. */
  lemma CreateHabitTwiceCreatesOnce(s: Store, name: string, description: string, periodicity: Periodicity, now: Timestamp, later: Timestamp)
    requires !NameTaken(s.habits, name)
    ensures var (o1, s1) := CreateHabit(s, name, description, periodicity, now);
            var (o2, s2) := CreateHabit(s1, name, description, periodicity, later);
            o1 == Created && o2 == AlreadyExists && s2 == s1
  {
    var s1 := CreateHabit(s, name, description, periodicity, now).1;
    assert s1.habits[|s.habits|] in s1.habits;
  }

  /** "Longest streak of all habits": the first listed habit whose streak is
      the overall maximum, with that maximum; 0 and the empty name when no
      habit has a completion. A later habit with an equal streak does not
      replace the holder, because the comparison is strict. */
  method LongestStreakOfAll(s: Store) returns (longest: nat, holder: string)
    ensures IsOverall(s, longest)
    ensures longest == 0 ==> holder == ""
    ensures longest > 0 ==> exists j :: 0 <= j < |s.habits| && IsFirstHolder(s, j, holder, longest)
  {
    longest, holder := FirstHolderOfListed(s, FetchAllHabitNames(s));
  }

  /** Row `j` is the first row whose streak is `n`, and `holder` is its name. */
  ghost predicate IsFirstHolder(s: Store, j: int, holder: string, n: nat)
    requires 0 <= j < |s.habits|
  {
    && s.habits[j].name == holder
    && StreakOf(s, holder) == n
    && forall k :: 0 <= k < j ==> StreakOf(s, s.habits[k].name) < n
  }

  /** The reported holder is determined: two first holders of one streak are
      the same row. */
  lemma FirstHolderUnique(s: Store, a: int, b: int, ha: string, hb: string, n: nat)
    requires 0 <= a < |s.habits| && 0 <= b < |s.habits|
    requires IsFirstHolder(s, a, ha, n) && IsFirstHolder(s, b, hb, n)
    ensures a == b && ha == hb
  {
  }

  /** The loop of the menu entry over a listing with one name per habit row. */
  method FirstHolderOfListed(s: Store, allHabits: seq<string>) returns (longest: nat, holder: string)
    requires |allHabits| == |s.habits|
    requires forall j :: 0 <= j < |s.habits| ==> allHabits[j] == s.habits[j].name
    ensures IsOverall(s, longest)
    ensures longest == 0 ==> holder == ""
    ensures longest > 0 ==> exists j :: 0 <= j < |s.habits| && IsFirstHolder(s, j, holder, longest)
  {
    ghost var streaks := Streaks(s);
    ghost var at := 0;
    longest := 0;
    holder := "";
    var i := 0;
    while i < |allHabits|
      invariant 0 <= i <= |allHabits|
      invariant forall j :: 0 <= j < i ==> streaks[j] <= longest
      invariant longest == 0 ==> holder == ""
      invariant longest > 0 ==> 0 <= at < i && allHabits[at] == holder && streaks[at] == longest
      invariant longest > 0 ==> forall k :: 0 <= k < at ==> streaks[k] < longest
    {
      var habitStreak := Analyse.ComputeLongestStreak(s, allHabits[i]);
      AgreesWithSortingAnalyser(s, allHabits[i]);
      assert habitStreak == streaks[i];
      BoundStep(streaks, i, longest);
      if habitStreak > longest {
        longest := habitStreak;
        holder := allHabits[i];
        at := i;
      }
      i := i + 1;
    }
    if longest > 0 {
      assert IsFirstHolder(s, at, holder, longest);
      StreaksMaxIsOverall(s, longest);
    } else {
      ZeroMaxIsOverall(s, streaks);
    }
  }

  /** When every row's streak is 0, the overall longest streak is 0. */
  lemma ZeroMaxIsOverall(s: Store, streaks: seq<nat>)
    requires streaks == Streaks(s)
    requires forall j :: 0 <= j < |streaks| ==> streaks[j] <= 0
    ensures IsOverall(s, 0)
  {
    if |s.habits| > 0 {
      assert streaks[0] == 0;
    }
    StreaksMaxIsOverall(s, 0);
  }
}

=== FILE: counter.dfy ===
/**
 `HabitTracker` and its four store operations, as functions from a tracker
 and a store to a new store or an error. A Python exception becomes `Fail`;
 the caller then keeps the store it had, as nothing was committed.
 */
module Counter {
  import opened Timestamps
  import opened Store

  /** A `HabitTracker`. `creationDate` is taken from the clock at construction. */
  datatype Tracker = Tracker(habitId: HabitRef, name: string, description: string, periodicity: string, creationDate: Timestamp)

  /** `HabitTracker(name, description, periodicity, habit_id)` called at time
      `now`; `habit_id` defaults to `None`. */
  function NewTracker(now: Timestamp, name: string, description: string, periodicity: string, habitId: HabitRef := Unset): (r: Tracker)
    ensures r.habitId == habitId
    ensures r.name == name && r.description == description && r.periodicity == periodicity
    ensures r.creationDate == now
  {
    Tracker(habitId, name, description, periodicity, now)
  }

  /** `save_to_database`: inserts one habit row carrying the tracker's fields
      and gives the tracker that row's id. The tracker's current id is never
      looked at, so a saved tracker is inserted again. */
  function Save(t: Tracker, s: Store): (r: Result<(Tracker, Store)>)
    ensures r.Fail? <==> s.uniqueNames && NameTaken(s.habits, t.name)
    ensures r.Fail? ==> r.error == DuplicateName
    ensures r.Ok? ==>
              var (t', s') := r.value;
              && |s'.habits| == |s.habits| + 1
              && s'.habits[..|s.habits|] == s.habits
              && s'.progress == s.progress
              && s'.uniqueNames == s.uniqueNames
              && s'.lastHabitId == s.lastHabitId + 1
              && s'.lastProgressId == s.lastProgressId
              && var row := s'.habits[|s.habits|];
                 && row.id == s'.lastHabitId
                 && row.name == t.name
                 && row.description == t.description
                 && row.periodicity == t.periodicity
                 && row.creationDate == t.creationDate
                 && t' == t.(habitId := RowId(row.id))
                 && (Valid(s) ==> Valid(s') && forall h :: h in s.habits ==> h.id != row.id)
  {
    if s.uniqueNames && NameTaken(s.habits, t.name) then Fail(DuplicateName)
    else
      var id := s.lastHabitId + 1;
      var row := HabitRow(id, t.name, t.description, t.periodicity, t.creationDate);
      var s' := s.(habits := s.habits + [row], lastHabitId := id);
      assert s'.habits[..|s.habits|] == s.habits;
      Ok((t.(habitId := RowId(id)), s'))
  }

  /** `log_progress`: a tracker without an id is refused; otherwise one
      progress row is appended, stamped with `trackedAt` or, when none is given,
      the clock reading `now`. */
  function LogProgress(t: Tracker, s: Store, trackedAt: Option<Timestamp>, now: Timestamp): (r: Result<Store>)
    ensures r.Fail? <==> t.habitId == Unset
    ensures r.Fail? ==> r.error == NotSaved
    ensures r.Ok? ==>
              var s' := r.value;
              && s'.habits == s.habits
              && s'.uniqueNames == s.uniqueNames
              && |s'.progress| == |s.progress| + 1
              && s'.progress[..|s.progress|] == s.progress
              && s'.lastHabitId == s.lastHabitId
              && s'.lastProgressId == s.lastProgressId + 1
              && s'.progress[|s.progress|].id == s'.lastProgressId
              && s'.progress[|s.progress|].habit == t.habitId
              && s'.progress[|s.progress|].trackedAt == (if trackedAt.Some? then trackedAt.value else now)
              && CountFor(s'.progress, t.habitId) == CountFor(s.progress, t.habitId) + 1
              && (forall ref :: ref != t.habitId ==> CountFor(s'.progress, ref) == CountFor(s.progress, ref))
              && (Valid(s) ==> Valid(s'))
  {
    if t.habitId == Unset then Fail(NotSaved)
    else
      var at := if trackedAt.Some? then trackedAt.value else now;
      var id := s.lastProgressId + 1;
      var e := ProgressRow(id, t.habitId, at);
      var s' := s.(progress := s.progress + [e], lastProgressId := id);
      assert s'.progress[..|s.progress|] == s.progress;
      AppendProgressValid(s, e);
      CountAfterAppend(s.progress, e, t.habitId);
      forall ref | ref != t.habitId
        ensures CountFor(s'.progress, ref) == CountFor(s.progress, ref)
      {
        CountAfterAppend(s.progress, e, ref);
      }
      Ok(s')
  }

  /** `clear_progress`: a tracker without an id is refused; otherwise every
      progress row carrying its id is deleted and nothing else changes. */
  function ClearProgress(t: Tracker, s: Store): (r: Result<Store>)
    ensures r.Fail? <==> t.habitId == Unset
    ensures r.Fail? ==> r.error == NotSaved
    ensures r.Ok? ==>
              var s' := r.value;
              && s'.habits == s.habits
              && s'.progress == Unlinked(s.progress, t.habitId)
              && s'.uniqueNames == s.uniqueNames
              && s'.lastHabitId == s.lastHabitId && s'.lastProgressId == s.lastProgressId
              && CountFor(s'.progress, t.habitId) == 0
              && (forall e :: e in s'.progress <==> e in s.progress && e.habit != t.habitId)
              && (Valid(s) ==> Valid(s'))
  {
    if t.habitId == Unset then Fail(NotSaved)
    else
      FilterKeepsDistinct(s.progress, ProgressId, (e: ProgressRow) => e.habit != t.habitId);
      Ok(s.(progress := Unlinked(s.progress, t.habitId)))
  }

  /** `delete_from_database`: a tracker without an id is refused; otherwise
      the habit rows with that id and the progress rows carrying it are
      deleted, and nothing else. */
  function DeleteFromDatabase(t: Tracker, s: Store): (r: Result<Store>)
    ensures r.Fail? <==> t.habitId == Unset
    ensures r.Fail? ==> r.error == NotSaved
    ensures r.Ok? ==>
              var s' := r.value;
              && s'.habits == OtherHabits(s.habits, t.habitId)
              && s'.progress == Unlinked(s.progress, t.habitId)
              && s'.uniqueNames == s.uniqueNames
              && s'.lastHabitId == s.lastHabitId && s'.lastProgressId == s.lastProgressId
              && (forall h :: h in s'.habits <==> h in s.habits && RowId(h.id) != t.habitId)
              && (forall e :: e in s'.progress <==> e in s.progress && e.habit != t.habitId)
              && CountFor(s'.progress, t.habitId) == 0
              && (Valid(s) ==> Valid(s'))
  {
    if t.habitId == Unset then Fail(NotSaved)
    else
      FilterKeepsDistinct(s.progress, ProgressId, (e: ProgressRow) => e.habit != t.habitId);
      Ok(s.(habits := OtherHabits(s.habits, t.habitId), progress := Unlinked(s.progress, t.habitId)))
  }

  /** Clearing twice leaves the store as clearing once does. */
  lemma ClearProgressIdempotent(t: Tracker, s: Store)
    requires ClearProgress(t, s).Ok?
    ensures ClearProgress(t, ClearProgress(t, s).value) == ClearProgress(t, s)
  {
    UnlinkedIdempotent(s.progress, t.habitId);
  }

  /** Deleting a habit removes from the log exactly what clearing it does. */
  lemma DeleteClearsProgress(t: Tracker, s: Store)
    requires t.habitId != Unset
    ensures DeleteFromDatabase(t, s).value.progress == ClearProgress(t, s).value.progress
  {
  }

  /** A tracker constructed without an id cannot log, clear or delete. */
  lemma NewTrackerIsUnsaved(now: Timestamp, name: string, description: string, periodicity: string,
                            s: Store, trackedAt: Option<Timestamp>)
    ensures NewTracker(now, name, description, periodicity).habitId == Unset
    ensures LogProgress(NewTracker(now, name, description, periodicity), s, trackedAt, now) == Fail(NotSaved)
    ensures ClearProgress(NewTracker(now, name, description, periodicity), s) == Fail(NotSaved)
    ensures DeleteFromDatabase(NewTracker(now, name, description, periodicity), s) == Fail(NotSaved)
  {
  }

  /** Saving the same tracker twice without a `UNIQUE` schema inserts two rows
      with the same name under two different ids: there is no upsert. */
  lemma SaveTwiceInsertsTwice(t: Tracker, s: Store)
    requires Valid(s) && !s.uniqueNames
    ensures Save(t, s).Ok?
    ensures Save(Save(t, s).value.0, Save(t, s).value.1).Ok?
    ensures var s2 := Save(Save(t, s).value.0, Save(t, s).value.1).value.1;
            && |s2.habits| == |s.habits| + 2
            && s2.habits[|s.habits|].name == s2.habits[|s.habits| + 1].name == t.name
            && s2.habits[|s.habits|].id != s2.habits[|s.habits| + 1].id
  {
    var (t1, s1) := Save(t, s).value;
    var (t2, s2) := Save(t1, s1).value;
    assert s1.habits[|s.habits|] in s1.habits;
    assert s2.habits[..|s1.habits|] == s1.habits;
  }

  /** With a `UNIQUE` schema the second save of a tracker fails instead. */
  lemma SaveTwiceRejectedWhenUnique(t: Tracker, s: Store)
    requires s.uniqueNames && Save(t, s).Ok?
    ensures Save(Save(t, s).value.0, Save(t, s).value.1) == Fail(DuplicateName)
  {
    var (t1, s1) := Save(t, s).value;
    assert s1.habits[|s.habits|] in s1.habits;
  }

  /** On a fresh store: save a habit, log once, and its count is 1; clear it,
      and its count is 0. */
  lemma LogThenClearScenario(t: Tracker, at: Timestamp)
    ensures var saved := Save(t, EmptyStore(true));
            && saved.Ok?
            && var (t1, s1) := saved.value;
               && LogProgress(t1, s1, Some(at), at).Ok?
               && var s2 := LogProgress(t1, s1, Some(at), at).value;
                  && CountFor(s2.progress, t1.habitId) == 1
                  && ClearProgress(t1, s2).Ok?
                  && CountFor(ClearProgress(t1, s2).value.progress, t1.habitId) == 0
  {
  }

  /** On a fresh store: save a habit and delete it, and its name is gone. */
  lemma SaveThenDeleteScenario(t: Tracker)
    ensures var saved := Save(t, EmptyStore(true));
            && saved.Ok?
            && var (t1, s1) := saved.value;
               && DeleteFromDatabase(t1, s1).Ok?
               && !NameTaken(DeleteFromDatabase(t1, s1).value.habits, t.name)
  {
    var (t1, s1) := Save(t, EmptyStore(true)).value;
    var s2 := DeleteFromDatabase(t1, s1).value;
    assert s1.habits == [s1.habits[0]];
    assert forall h :: h in s2.habits ==> h in s1.habits && RowId(h.id) != t1.habitId;
  }
}

=== FILE: db.dfy ===
/**
 The read queries over the store: the three functions of db.py and the
 joined, ordered `SELECT tracked_at` both analysers issue. Each is a pure
 function of the store, so none of them can change it.
 */
module Db {
  import opened Timestamps
  import opened Store
  import opened Counter

  /** The `name` column of `rows`, row by row. */
  function NamesOf(rows: seq<HabitRow>): (names: seq<string>)
    ensures |names| == |rows|
    ensures forall i :: 0 <= i < |rows| ==> names[i] == rows[i].name
    decreases |rows|
  {
    if |rows| == 0 then [] else [rows[0].name] + NamesOf(rows[1..])
  }

  /** A filter on the rows gives a sub-multiset of the names. */
  lemma {:induction false} FilterNamesSubMultiset(rows: seq<HabitRow>, keep: HabitRow -> bool)
    ensures multiset(NamesOf(Filter(rows, keep))) <= multiset(NamesOf(rows))
    decreases |rows|
  {
    if |rows| > 0 {
      FilterNamesSubMultiset(rows[1..], keep);
      assert NamesOf(rows) == [rows[0].name] + NamesOf(rows[1..]);
      if keep(rows[0]) {
        assert NamesOf(Filter(rows, keep)) == [rows[0].name] + NamesOf(Filter(rows[1..], keep));
      }
    }
  }

  /** `fetch_all_habit_names`: one name per habit row. */
  function FetchAllHabitNames(s: Store): (names: seq<string>)
    ensures |names| == |s.habits|
    ensures forall i :: 0 <= i < |s.habits| ==> names[i] == s.habits[i].name
    ensures forall n :: n in names <==> NameTaken(s.habits, n)
  {
    NamesOf(s.habits)
  }

  /** `WHERE periodicity = ?`. */
  function HasPeriodicity(periodicity: string): HabitRow -> bool
  {
    (h: HabitRow) => h.periodicity == periodicity
  }

  /** `fetch_habits_by_periodicity`: one name per row whose periodicity is
      `periodicity`, in row order, drawn from the full name listing. */
  function FetchHabitsByPeriodicity(s: Store, periodicity: string): (names: seq<string>)
    ensures |names| == |Filter(s.habits, HasPeriodicity(periodicity))|
    ensures forall i :: 0 <= i < |names| ==> names[i] == Filter(s.habits, HasPeriodicity(periodicity))[i].name
    ensures forall n :: n in names <==> exists h :: h in s.habits && h.periodicity == periodicity && h.name == n
    ensures multiset(names) <= multiset(FetchAllHabitNames(s))
  {
    var keep := HasPeriodicity(periodicity);
    var rows := Filter(s.habits, keep);
    FilterNamesSubMultiset(s.habits, keep);
    assert forall n :: n in NamesOf(rows) <==> exists h :: h in rows && h.name == n by {
      forall n
        ensures n in NamesOf(rows) <==> exists h :: h in rows && h.name == n
      {
        if n in NamesOf(rows) {
          var i :| 0 <= i < |rows| && NamesOf(rows)[i] == n;
          assert rows[i] in rows;
        }
        if h :| h in rows && h.name == n {
          var i :| 0 <= i < |rows| && rows[i] == h;
          assert NamesOf(rows)[i] == n;
        }
      }
    }
    NamesOf(rows)
  }

  /** Position of the first row named `name`: the row `fetchone` returns. */
  function FirstNamed(rows: seq<HabitRow>, name: string): (r: Option<nat>)
    ensures r.None? <==> !NameTaken(rows, name)
    ensures r.Some? ==> r.value < |rows| && rows[r.value].name == name
    ensures r.Some? ==> forall j :: 0 <= j < r.value ==> rows[j].name != name
    decreases |rows|
  {
    if |rows| == 0 then None
    else if rows[0].name == name then Some(0)
    else
      assert forall h :: h in rows && h != rows[0] ==> h in rows[1..];
      match FirstNamed(rows[1..], name)
      case None => None
      case Some(i) => Some(i + 1)
  }

  /** `get_habit_tracker`: `None` when no row has the name; otherwise a tracker
      built as `HabitTracker(*row[1:])`. The row's name, description and
      periodicity fill the first three parameters and its creation-date text
      fills the fourth, `habit_id`; the constructor then stamps a fresh
      creation date from the clock. */
  function GetHabitTracker(s: Store, name: string, now: Timestamp): (r: Option<Tracker>)
    ensures r.None? <==> !NameTaken(s.habits, name)
    ensures r.Some? ==> r.value.name == name && r.value.creationDate == now
    ensures r.Some? ==>
              exists i :: 0 <= i < |s.habits| && s.habits[i].name == name
                          && r.value.habitId == DateText(s.habits[i].creationDate)
                          && r.value.description == s.habits[i].description
                          && r.value.periodicity == s.habits[i].periodicity
    ensures r.Some? ==> forall h :: h in s.habits ==> r.value.habitId != RowId(h.id)
  {
    match FirstNamed(s.habits, name)
    case None => None
    case Some(i) =>
      var row := s.habits[i];
      Some(NewTracker(now, row.name, row.description, row.periodicity, DateText(row.creationDate)))
  }

  /** The ids of the habit rows named `name`. */
  function IdsNamed(habits: seq<HabitRow>, name: string): set<int>
  {
    set h | h in habits && h.name == name :: h.id
  }

  /** `INNER JOIN habits ON progress_log.habit_id = habits.id WHERE habits.name = ?`:
      the progress row carries the integer id of a habit row with that name. */
  predicate Joins(habits: seq<HabitRow>, name: string, e: ProgressRow)
  {
    e.habit.RowId? && e.habit.id in IdsNamed(habits, name)
  }

  /** The progress rows the join keeps for `name`, in log order. */
  function Joined(habits: seq<HabitRow>, progress: seq<ProgressRow>, name: string): (rows: seq<ProgressRow>)
    ensures forall e :: e in rows <==> e in progress && Joins(habits, name, e)
  {
    Filter(progress, (e: ProgressRow) => Joins(habits, name, e))
  }

  /** A row appended to the log joins on its own. */
  lemma JoinedAppend(habits: seq<HabitRow>, progress: seq<ProgressRow>, e: ProgressRow, name: string)
    ensures Joined(habits, progress + [e], name)
            == Joined(habits, progress, name) + (if Joins(habits, name, e) then [e] else [])
  {
    FilterAppend(progress, e, (e: ProgressRow) => Joins(habits, name, e));
  }

  /** The `tracked_at` column of `rows`, row by row. */
  function TimesOf(rows: seq<ProgressRow>): (ts: seq<Timestamp>)
    ensures |ts| == |rows|
    ensures forall i :: 0 <= i < |rows| ==> ts[i] == rows[i].trackedAt
  {
    seq(|rows|, i requires 0 <= i < |rows| => rows[i].trackedAt)
  }

  /** The completion times both analysers read for a habit name, in the
      ascending order `ORDER BY tracked_at ASC` returns them: one entry per
      progress row joined to a habit row of that name. */
  function CompletionTimes(s: Store, name: string): (ts: seq<Timestamp>)
    ensures Sorted(ts)
    ensures |ts| == |Joined(s.habits, s.progress, name)|
    ensures multiset(ts) == multiset(TimesOf(Joined(s.habits, s.progress, name)))
    ensures forall t :: t in ts <==> exists e :: e in s.progress && Joins(s.habits, name, e) && e.trackedAt == t
    ensures !NameTaken(s.habits, name) ==> ts == []
  {
    var joined := Joined(s.habits, s.progress, name);
    var ts := Sort(TimesOf(joined));
    assert forall t :: t in ts <==> t in TimesOf(joined) by {
      forall t
        ensures t in ts <==> t in TimesOf(joined)
      {
        assert t in ts <==> t in multiset(ts);
        assert t in TimesOf(joined) <==> t in multiset(TimesOf(joined));
      }
    }
    assert forall t :: t in TimesOf(joined) <==> exists e :: e in joined && e.trackedAt == t by {
      forall t
        ensures t in TimesOf(joined) <==> exists e :: e in joined && e.trackedAt == t
      {
        if t in TimesOf(joined) {
          var i :| 0 <= i < |joined| && TimesOf(joined)[i] == t;
          assert joined[i] in joined;
        }
        if e :| e in joined && e.trackedAt == t {
          var i :| 0 <= i < |joined| && joined[i] == e;
          assert TimesOf(joined)[i] == t;
        }
      }
    }
    assert |ts| == |multiset(ts)| == |multiset(TimesOf(joined))| == |joined|;
    assert !NameTaken(s.habits, name) ==> |joined| == 0 by {
      if |joined| > 0 {
        assert joined[0] in joined;
      }
    }
    ts
  }

  /** A progress row that joins no habit of `name` leaves its completion
      times as they were. */
  lemma CompletionTimesSkipUnjoined(s: Store, e: ProgressRow, name: string)
    requires !Joins(s.habits, name, e)
    ensures CompletionTimes(s.(progress := s.progress + [e]), name) == CompletionTimes(s, name)
  {
    var s2 := s.(progress := s.progress + [e]);
    JoinedAppend(s.habits, s.progress, e, name);
    assert Joined(s2.habits, s2.progress, name) == Joined(s.habits, s.progress, name);
  }

  /** A progress row that joins a habit of `name` adds its time to that
      name's completion times. */
  lemma CompletionTimesAddJoined(s: Store, e: ProgressRow, name: string)
    requires Joins(s.habits, name, e)
    ensures multiset(CompletionTimes(s.(progress := s.progress + [e]), name))
            == multiset(CompletionTimes(s, name)) + multiset{e.trackedAt}
  {
    var joined := Joined(s.habits, s.progress, name);
    JoinedAppend(s.habits, s.progress, e, name);
    assert TimesOf(joined + [e]) == TimesOf(joined) + [e.trackedAt];
  }

  /** A saved habit's name is listed. */
  lemma SavedHabitIsListed(t: Tracker, s: Store)
    requires Save(t, s).Ok?
    ensures t.name in FetchAllHabitNames(Save(t, s).value.1)
  {
    var s' := Save(t, s).value.1;
    assert s'.habits[|s.habits|] in s'.habits;
  }

  /** Fetching the tracker of a habit just saved under a new name finds it,
      and the fetched tracker's `habit_id` is the saved creation date, not the
      new row's id. */
  lemma SavedHabitIsFound(t: Tracker, s: Store, now: Timestamp)
    requires Save(t, s).Ok? && !NameTaken(s.habits, t.name)
    ensures GetHabitTracker(Save(t, s).value.1, t.name, now).Some?
    ensures GetHabitTracker(Save(t, s).value.1, t.name, now).value.name == t.name
    ensures GetHabitTracker(Save(t, s).value.1, t.name, now).value.habitId == DateText(t.creationDate)
    ensures GetHabitTracker(Save(t, s).value.1, t.name, now).value.habitId != Save(t, s).value.0.habitId
  {
    var s' := Save(t, s).value.1;
    assert s'.habits[|s.habits|] in s'.habits;
    var r := GetHabitTracker(s', t.name, now);
    var i :| 0 <= i < |s'.habits| && s'.habits[i].name == t.name
             && r.value.habitId == DateText(s'.habits[i].creationDate);
  }

  /** Progress logged through a fetched tracker is stored under the
      creation-date text, so it joins no habit: no completion times change. */
  lemma FetchedTrackerLogIsNotCounted(s: Store, name: string, now: Timestamp, at: Timestamp)
    requires GetHabitTracker(s, name, now).Some?
    ensures LogProgress(GetHabitTracker(s, name, now).value, s, Some(at), now).Ok?
    ensures forall n :: CompletionTimes(LogProgress(GetHabitTracker(s, name, now).value, s, Some(at), now).value, n)
                        == CompletionTimes(s, n)
  {
    var t := GetHabitTracker(s, name, now).value;
    var s' := LogProgress(t, s, Some(at), now).value;
    var e := s'.progress[|s.progress|];
    assert s'.progress == s.progress + [e];
    assert s' == s.(progress := s.progress + [e], lastProgressId := s'.lastProgressId);
    forall n
      ensures CompletionTimes(s', n) == CompletionTimes(s, n)
    {
      CompletionTimesSkipUnjoined(s, e, n);
      assert CompletionTimes(s', n) == CompletionTimes(s.(progress := s.progress + [e]), n);
    }
  }

  /** Deleting through a fetched tracker removes no habit row. */
  lemma FetchedTrackerDeleteKeepsHabits(s: Store, name: string, now: Timestamp)
    requires GetHabitTracker(s, name, now).Some?
    ensures DeleteFromDatabase(GetHabitTracker(s, name, now).value, s).Ok?
    ensures DeleteFromDatabase(GetHabitTracker(s, name, now).value, s).value.habits == s.habits
  {
    var t := GetHabitTracker(s, name, now).value;
    OtherHabitsKeepsAll(s.habits, t.habitId);
  }

  /** Deleting the rows logged under a creation-date text leaves every join
      as it was, since such rows never join. */
  lemma {:induction false} JoinedIgnoresDateTextUnlink(habits: seq<HabitRow>, progress: seq<ProgressRow>, ref: HabitRef, name: string)
    requires ref.DateText?
    ensures Joined(habits, Unlinked(progress, ref), name) == Joined(habits, progress, name)
    decreases |progress|
  {
    if |progress| > 0 {
      var rest := progress[..|progress| - 1];
      var e := progress[|progress| - 1];
      assert progress == rest + [e];
      JoinedIgnoresDateTextUnlink(habits, rest, ref, name);
      UnlinkedAppend(rest, e, ref);
      JoinedAppend(habits, rest, e, name);
      if e.habit == ref {
        assert !Joins(habits, name, e);
        assert Unlinked(progress, ref) == Unlinked(rest, ref);
      } else {
        assert Unlinked(progress, ref) == Unlinked(rest, ref) + [e];
        JoinedAppend(habits, Unlinked(rest, ref), e, name);
      }
    }
  }

  /** "Reset Habit" through a fetched tracker deletes only the rows logged
      under the creation-date text, which join no habit: no completion times
      change. */
  lemma FetchedTrackerClearKeepsTimes(s: Store, name: string, now: Timestamp)
    requires GetHabitTracker(s, name, now).Some?
    ensures ClearProgress(GetHabitTracker(s, name, now).value, s).Ok?
    ensures forall n :: CompletionTimes(ClearProgress(GetHabitTracker(s, name, now).value, s).value, n)
                        == CompletionTimes(s, n)
  {
    var t := GetHabitTracker(s, name, now).value;
    var s' := ClearProgress(t, s).value;
    var i :| 0 <= i < |s.habits| && s.habits[i].name == name
             && t.habitId == DateText(s.habits[i].creationDate);
    forall n
      ensures CompletionTimes(s', n) == CompletionTimes(s, n)
    {
      JoinedIgnoresDateTextUnlink(s.habits, s.progress, t.habitId, n);
    }
  }

  /** `get_habit_tracker` as its callers use it: the tracker carries the id
      of the row it was built from. */
  function GetHabitTrackerIntended(s: Store, name: string, now: Timestamp): (r: Option<Tracker>)
    ensures r.None? <==> !NameTaken(s.habits, name)
    ensures r.Some? ==> r.value.name == name && r.value.creationDate == now
    ensures r.Some? ==>
              exists i :: 0 <= i < |s.habits| && s.habits[i].name == name
                          && r.value.habitId == RowId(s.habits[i].id)
                          && r.value.description == s.habits[i].description
                          && r.value.periodicity == s.habits[i].periodicity
  {
    match FirstNamed(s.habits, name)
    case None => None
    case Some(i) =>
      var row := s.habits[i];
      Some(NewTracker(now, row.name, row.description, row.periodicity, RowId(row.id)))
  }

  /** Progress logged through the intended tracker adds its time to the
      habit's completion times. */
  lemma IntendedTrackerLogIsCounted(s: Store, name: string, now: Timestamp, at: Timestamp)
    requires GetHabitTrackerIntended(s, name, now).Some?
    ensures LogProgress(GetHabitTrackerIntended(s, name, now).value, s, Some(at), now).Ok?
    ensures multiset(CompletionTimes(LogProgress(GetHabitTrackerIntended(s, name, now).value, s, Some(at), now).value, name))
            == multiset(CompletionTimes(s, name)) + multiset{at}
  {
    var t := GetHabitTrackerIntended(s, name, now).value;
    var s' := LogProgress(t, s, Some(at), now).value;
    var e := s'.progress[|s.progress|];
    assert s'.progress == s.progress + [e];
    var i :| 0 <= i < |s.habits| && s.habits[i].name == name && t.habitId == RowId(s.habits[i].id);
    assert s.habits[i] in s.habits;
    assert Joins(s.habits, name, e);
    CompletionTimesAddJoined(s, e, name);
    assert CompletionTimes(s', name) == CompletionTimes(s.(progress := s.progress + [e]), name);
  }

  /** In a valid store with unique names, "Reset Habit" through the intended
      tracker leaves the habit with no completion times. */
  lemma IntendedTrackerClearEmptiesTimes(s: Store, name: string, now: Timestamp)
    requires Valid(s) && s.uniqueNames
    requires GetHabitTrackerIntended(s, name, now).Some?
    ensures ClearProgress(GetHabitTrackerIntended(s, name, now).value, s).Ok?
    ensures CompletionTimes(ClearProgress(GetHabitTrackerIntended(s, name, now).value, s).value, name) == []
  {
    var t := GetHabitTrackerIntended(s, name, now).value;
    var s' := ClearProgress(t, s).value;
    var i :| 0 <= i < |s.habits| && s.habits[i].name == name && t.habitId == RowId(s.habits[i].id);
    var joined := Joined(s'.habits, s'.progress, name);
    if |joined| > 0 {
      assert joined[0] in joined;
    }
  }

  /** In a valid store with unique names, deleting through the intended
      tracker removes the habit: its name is no longer listed and it has no
      completion times left. */
  lemma IntendedTrackerDeleteRemovesHabit(s: Store, name: string, now: Timestamp)
    requires Valid(s) && s.uniqueNames
    requires GetHabitTrackerIntended(s, name, now).Some?
    ensures DeleteFromDatabase(GetHabitTrackerIntended(s, name, now).value, s).Ok?
    ensures name !in FetchAllHabitNames(DeleteFromDatabase(GetHabitTrackerIntended(s, name, now).value, s).value)
    ensures CompletionTimes(DeleteFromDatabase(GetHabitTrackerIntended(s, name, now).value, s).value, name) == []
  {
    var t := GetHabitTrackerIntended(s, name, now).value;
    var s' := DeleteFromDatabase(t, s).value;
    var i :| 0 <= i < |s.habits| && s.habits[i].name == name && t.habitId == RowId(s.habits[i].id);
    forall h | h in s'.habits
      ensures h.name != name
    {
      assert h in s.habits && RowId(h.id) != t.habitId;
      var j :| 0 <= j < |s.habits| && s.habits[j] == h;
      assert j != i;
    }
  }
}

=== FILE: project_analyse.dfy ===
/**
 Project/analyse.py: the Project/ copy of the analyser. It walks the completion times in the
 order the query returns them, without sorting, and adds the maximum over
 all habits.
 */
module ProjectAnalyse {
  import opened Timestamps
  import opened Streak
  import opened Store
  import opened Db

  /** The streak of the habits named `name`, over their completion times in
      query order. */
  ghost function StreakOf(s: Store, name: string): nat
  {
    LongestRun(CompletionTimes(s, name))
  }

  /** `n` is the overall longest streak: 0 without habits, otherwise at least
      every habit's streak and equal to one of them. */
  ghost predicate IsOverall(s: Store, n: nat)
  {
    && (|s.habits| == 0 ==> n == 0)
    && (forall h :: h in s.habits ==> StreakOf(s, h.name) <= n)
    && (|s.habits| > 0 ==> exists h :: h in s.habits && StreakOf(s, h.name) == n)
  }

  /** `compute_longest_streak`: 0 for no completions, otherwise the longest
      run of the completion times as the query orders them. */
  method ComputeLongestStreak(s: Store, habitName: string) returns (longest: nat)
    ensures longest == StreakOf(s, habitName)
    ensures IsLongestRun(CompletionTimes(s, habitName), longest)
    ensures longest == 0 <==> |CompletionTimes(s, habitName)| == 0
    ensures longest <= |CompletionTimes(s, habitName)|
    ensures !NameTaken(s.habits, habitName) ==> longest == 0
  {
    var dates := CompletionTimes(s, habitName);
    if |dates| == 0 {
      LongestRunIsLongestSegment(dates);
      return 0;
    }
    longest := LongestStreakOf(dates);
  }

  /** On input the query already returns in ascending order, the sorting
      analyser of analyse.py and this one agree. */
  lemma AgreesWithSortingAnalyser(s: Store, name: string)
    ensures LongestRun(Sort(CompletionTimes(s, name))) == StreakOf(s, name)
  {
    SortKeepsSorted(CompletionTimes(s, name));
  }

  /** Every habit row's streak, in row order. */
  ghost function Streaks(s: Store): (r: seq<nat>)
    ensures |r| == |s.habits|
    ensures forall j :: 0 <= j < |r| ==> r[j] == StreakOf(s, s.habits[j].name)
  {
    seq(|s.habits|, j requires 0 <= j < |s.habits| => StreakOf(s, s.habits[j].name))
  }

  /** `compute_longest_streak_overall`: the maximum streak over the listed
      habit names, 0 when there are none. */
  method ComputeLongestStreakOverall(s: Store) returns (longest: nat)
    ensures IsOverall(s, longest)
  {
    longest := LongestOfListed(s, FetchAllHabitNames(s));
  }

  /** The loop of `compute_longest_streak_overall` over a listing that holds
      one name per habit row, in row order: it keeps the largest streak seen. */
  method LongestOfListed(s: Store, allHabits: seq<string>) returns (longest: nat)
    requires |allHabits| == |s.habits|
    requires forall j :: 0 <= j < |s.habits| ==> allHabits[j] == s.habits[j].name
    ensures IsOverall(s, longest)
  {
    ghost var streaks := Streaks(s);
    longest := 0;
    var i := 0;
    while i < |allHabits|
      invariant 0 <= i <= |allHabits|
      invariant forall j :: 0 <= j < i ==> streaks[j] <= longest
      invariant i == 0 ==> longest == 0
      invariant i > 0 ==> exists j :: 0 <= j < i && streaks[j] == longest
    {
      var habitStreak := ComputeLongestStreak(s, allHabits[i]);
      assert habitStreak == streaks[i];
      MaxStep(streaks, i, longest);
      longest := Max(longest, habitStreak);
      i := i + 1;
    }
    StreaksMaxIsOverall(s, longest);
  }

  /** Taking one more entry into a running bound keeps it a bound. */
  lemma BoundStep(xs: seq<nat>, i: nat, m: nat)
    requires i < |xs|
    requires forall j :: 0 <= j < i ==> xs[j] <= m
    ensures forall j :: 0 <= j <= i ==> xs[j] <= Max(m, xs[i])
  {
  }

  /** Taking one more entry into a running maximum keeps it a maximum of the
      entries seen and one of them. */
  lemma MaxStep(xs: seq<nat>, i: nat, m: nat)
    requires i < |xs|
    requires forall j :: 0 <= j < i ==> xs[j] <= m
    requires i == 0 ==> m == 0
    requires i > 0 ==> exists j :: 0 <= j < i && xs[j] == m
    ensures forall j :: 0 <= j <= i ==> xs[j] <= Max(m, xs[i])
    ensures exists j :: 0 <= j <= i && xs[j] == Max(m, xs[i])
  {
    BoundStep(xs, i, m);
    if m < xs[i] || i == 0 {
      assert xs[i] == Max(m, xs[i]);
    } else {
      var j :| 0 <= j < i && xs[j] == m;
      assert xs[j] == Max(m, xs[i]);
    }
  }

  /** A maximum of the row streaks is the overall longest streak. */
  lemma StreaksMaxIsOverall(s: Store, n: nat)
    requires |s.habits| == 0 ==> n == 0
    requires forall j :: 0 <= j < |s.habits| ==> Streaks(s)[j] <= n
    requires |s.habits| > 0 ==> exists j :: 0 <= j < |s.habits| && Streaks(s)[j] == n
    ensures IsOverall(s, n)
  {
    var r := Streaks(s);
    forall h | h in s.habits
      ensures StreakOf(s, h.name) <= n
    {
      var j :| 0 <= j < |s.habits| && s.habits[j] == h;
      assert r[j] <= n;
    }
    if |s.habits| > 0 {
      var j :| 0 <= j < |s.habits| && r[j] == n;
      assert s.habits[j] in s.habits;
    }
  }

  /** The overall value is determined by the habits' streaks. */
  lemma IsOverallUnique(s: Store, a: nat, b: nat)
    requires IsOverall(s, a) && IsOverall(s, b)
    ensures a == b
  {
    if |s.habits| > 0 {
      var ha :| ha in s.habits && StreakOf(s, ha.name) == a;
      var hb :| hb in s.habits && StreakOf(s, hb.name) == b;
    }
  }

  /** The join of a three-row log, row by row. */
  lemma JoinedOfThree(habits: seq<HabitRow>, e1: ProgressRow, e2: ProgressRow, e3: ProgressRow, name: string)
    ensures Joined(habits, [e1, e2, e3], name)
            == (if Joins(habits, name, e1) then [e1] else [])
               + (if Joins(habits, name, e2) then [e2] else [])
               + (if Joins(habits, name, e3) then [e3] else [])
  {
    JoinedAppend(habits, [], e1, name);
    assert [] + [e1] == [e1];
    JoinedAppend(habits, [e1], e2, name);
    assert [e1] + [e2] == [e1, e2];
    JoinedAppend(habits, [e1, e2], e3, name);
    assert [e1, e2] + [e3] == [e1, e2, e3];
  }

  /** A habit whose joined log rows are already in time order has the
      streak of their times. */
  lemma StreakOfOrderedLog(s: Store, name: string, rows: seq<ProgressRow>)
    requires Joined(s.habits, s.progress, name) == rows
    requires Sorted(TimesOf(rows))
    ensures StreakOf(s, name) == LongestRun(TimesOf(rows))
  {
    SortKeepsSorted(TimesOf(rows));
  }

  /** The store of two habits the overall-streak example uses: "Yoga",
      completed two days and one day before `now`, and "Piano", completed at
      `now`. */
  function ExampleStore(now: Timestamp): Store
  {
    Store([HabitRow(1, "Yoga", "Practice yoga", "Daily", now),
           HabitRow(2, "Piano", "Play piano", "Daily", now)],
          [ProgressRow(1, RowId(1), now - 2 * SecondsPerDay),
           ProgressRow(2, RowId(1), now - SecondsPerDay),
           ProgressRow(3, RowId(2), now)],
          2, 3, true)
  }

  /** Two completions exactly one day apart make a streak of 2. */
  lemma ExampleYogaStreak(now: Timestamp)
    ensures StreakOf(ExampleStore(now), "Yoga") == 2
  {
    var s := ExampleStore(now);
    var e1, e2, e3 := s.progress[0], s.progress[1], s.progress[2];
    assert IdsNamed(s.habits, "Yoga") == {1};
    JoinedOfThree(s.habits, e1, e2, e3, "Yoga");
    assert TimesOf([e1, e2]) == Daily(now - 2 * SecondsPerDay, 2);
    StreakOfOrderedLog(s, "Yoga", [e1, e2]);
    DailyStreak(now - 2 * SecondsPerDay, 2);
  }

  /** A single completion makes a streak of 1. */
  lemma ExamplePianoStreak(now: Timestamp)
    ensures StreakOf(ExampleStore(now), "Piano") == 1
  {
    var s := ExampleStore(now);
    var e1, e2, e3 := s.progress[0], s.progress[1], s.progress[2];
    assert IdsNamed(s.habits, "Piano") == {2};
    JoinedOfThree(s.habits, e1, e2, e3, "Piano");
    assert TimesOf([e3]) == [now];
    StreakOfOrderedLog(s, "Piano", [e3]);
  }

  /** Two habits, one completed on two consecutive days and one completed
      once: the overall longest streak is 2. */
  lemma OverallLongestExample(now: Timestamp)
    ensures IsOverall(ExampleStore(now), 2)
  {
    ExampleYogaStreak(now);
    ExamplePianoStreak(now);
    TwoHabitsOverall(ExampleStore(now));
  }

  /** With two habit rows, the overall longest streak is the larger of their
      two streaks. */
  lemma TwoHabitsOverall(s: Store)
    requires |s.habits| == 2
    ensures IsOverall(s, Max(StreakOf(s, s.habits[0].name), StreakOf(s, s.habits[1].name)))
  {
    var r := Streaks(s);
    var n := Max(r[0], r[1]);
    forall j | 0 <= j < |r|
      ensures r[j] <= n
    {
      assert j == 0 || j == 1;
    }
    if r[0] < r[1] {
      assert r[1] == n;
    } else {
      assert r[0] == n;
    }
    StreaksMaxIsOverall(s, n);
  }
}

=== FILE: store.dfy ===
/**
 The two SQLite tables as one immutable value.

 `habits` holds the rows of `habits(id, name, description, periodicity,
 creation_date)` and `progress` the rows of `progress_log(id, habit_id,
 tracked_at)`, each in insertion order. `lastHabitId` and `lastProgressId`
 are the AUTOINCREMENT counters: a new row gets the next number.
 `uniqueNames` says whether the schema declares `name UNIQUE`; the
 application schema does not, the test schema does.
 */
module Store {
  import opened Timestamps

  /** A value that can sit in a tracker's `habit_id` slot or in the
      `progress_log.habit_id` column. `Unset` is Python's `None`; `RowId` is an
      integer id; `DateText` is a creation-date text, which is what
      `get_habit_tracker` puts there. SQLite does not read such a text as an
      integer, so it never equals any `habits.id`. */
  datatype HabitRef = Unset | RowId(id: int) | DateText(stamp: Timestamp)

  datatype HabitRow = HabitRow(id: int, name: string, description: string, periodicity: string, creationDate: Timestamp)

  datatype ProgressRow = ProgressRow(id: int, habit: HabitRef, trackedAt: Timestamp)

  datatype Store = Store(
    habits: seq<HabitRow>,
    progress: seq<ProgressRow>,
    lastHabitId: int,
    lastProgressId: int,
    uniqueNames: bool)

  /** `NotSaved` is the `ValueError` a tracker without an id raises;
      `DuplicateName` is the integrity error of a `name UNIQUE` schema. */
  datatype Error = NotSaved | DuplicateName

  datatype Result<T> = Ok(value: T) | Fail(error: Error)

  datatype Option<T> = None | Some(value: T)

  /** The tables as `initialize_database` leaves them on first start. */
  function EmptyStore(uniqueNames: bool): (s: Store)
    ensures Valid(s)
    ensures |s.habits| == 0 && |s.progress| == 0 && s.uniqueNames == uniqueNames
  {
    Store([], [], 0, 0, uniqueNames)
  }

  /** The rows of `s` that `keep` accepts, in their original order: what a
      `DELETE ... WHERE` leaves behind or a `SELECT ... WHERE` returns. */
  function Filter<T(!new)>(s: seq<T>, keep: T -> bool): (r: seq<T>)
    ensures |r| <= |s|
    ensures forall x :: x in r <==> x in s && keep(x)
    decreases |s|
  {
    if |s| == 0 then []
    else if keep(s[0]) then [s[0]] + Filter(s[1..], keep)
    else Filter(s[1..], keep)
  }

  /** Filtering a row appended at the end filters it on its own. */
  lemma {:induction false} FilterAppend<T(!new)>(s: seq<T>, x: T, keep: T -> bool)
    ensures Filter(s + [x], keep) == Filter(s, keep) + (if keep(x) then [x] else [])
    decreases |s|
  {
    if |s| > 0 {
      assert (s + [x])[1..] == s[1..] + [x];
      FilterAppend(s[1..], x, keep);
    } else {
      assert [x][1..] == [];
    }
  }

  /** A filter that accepts every row keeps them all. */
  lemma {:induction false} FilterKeepsAll<T(!new)>(s: seq<T>, keep: T -> bool)
    requires forall x :: x in s ==> keep(x)
    ensures Filter(s, keep) == s
    decreases |s|
  {
    if |s| > 0 {
      assert s[0] in s;
      FilterKeepsAll(s[1..], keep);
      assert s == [s[0]] + s[1..];
    }
  }

  /** No two rows share a `key`. */
  predicate DistinctBy<T, K(==)>(rows: seq<T>, key: T -> K)
  {
    forall i, j :: 0 <= i < j < |rows| ==> key(rows[i]) != key(rows[j])
  }

  function HabitId(h: HabitRow): int { h.id }

  function HabitName(h: HabitRow): string { h.name }

  function ProgressId(e: ProgressRow): int { e.id }

  predicate HabitIdsDistinct(rows: seq<HabitRow>)
  {
    DistinctBy(rows, HabitId)
  }

  predicate NamesDistinct(rows: seq<HabitRow>)
  {
    DistinctBy(rows, HabitName)
  }

  predicate ProgressIdsDistinct(rows: seq<ProgressRow>)
  {
    DistinctBy(rows, ProgressId)
  }

  /** What SQLite maintains for the tables: ids are positive, distinct and
      within the AUTOINCREMENT counter, and names are distinct when the schema
      says `UNIQUE`. */
  ghost predicate Valid(s: Store)
  {
    && 0 <= s.lastHabitId
    && 0 <= s.lastProgressId
    && (forall h :: h in s.habits ==> 1 <= h.id <= s.lastHabitId)
    && (forall e :: e in s.progress ==> 1 <= e.id <= s.lastProgressId)
    && HabitIdsDistinct(s.habits)
    && ProgressIdsDistinct(s.progress)
    && (s.uniqueNames ==> NamesDistinct(s.habits))
  }

  /** Appending a progress row under the next counter value keeps the store
      valid. */
  lemma AppendProgressValid(s: Store, e: ProgressRow)
    requires e.id == s.lastProgressId + 1
    ensures Valid(s) ==> Valid(s.(progress := s.progress + [e], lastProgressId := e.id))
  {
    if Valid(s) {
      var p := s.progress + [e];
      forall i, j | 0 <= i < j < |p|
        ensures p[i].id != p[j].id
      {
        assert p[i] == s.progress[i] && p[i] in s.progress;
        if j < |s.progress| {
          assert p[j] == s.progress[j];
        }
      }
    }
  }

  /** Some habit row carries `name`. */
  predicate NameTaken(habits: seq<HabitRow>, name: string)
  {
    exists h :: h in habits && h.name == name
  }

  /** `SELECT COUNT(*) FROM progress_log WHERE habit_id = ?`. */
  function CountFor(rows: seq<ProgressRow>, ref: HabitRef): (n: nat)
    ensures n <= |rows|
    ensures n == 0 <==> forall e :: e in rows ==> e.habit != ref
  {
    var matching := Filter(rows, (e: ProgressRow) => e.habit == ref);
    assert |matching| > 0 ==> matching[0] in matching;
    |matching|
  }

  /** Appending a row raises its habit's count by one and leaves every other
      count alone. */
  lemma CountAfterAppend(rows: seq<ProgressRow>, e: ProgressRow, ref: HabitRef)
    ensures CountFor(rows + [e], ref) == CountFor(rows, ref) + (if e.habit == ref then 1 else 0)
  {
    FilterAppend(rows, e, (e: ProgressRow) => e.habit == ref);
  }

  /** Filtering keeps rows with distinct keys distinct. */
  lemma {:induction false} FilterKeepsDistinct<T(!new), K>(rows: seq<T>, key: T -> K, keep: T -> bool)
    ensures DistinctBy(rows, key) ==> DistinctBy(Filter(rows, keep), key)
    decreases |rows|
  {
    if |rows| > 0 {
      var rest := Filter(rows[1..], keep);
      FilterKeepsDistinct(rows[1..], key, keep);
      forall k | 0 <= k < |rest|
        ensures exists m :: 1 <= m < |rows| && rest[k] == rows[m]
      {
        assert rest[k] in rows[1..];
        var m :| 0 <= m < |rows[1..]| && rows[1..][m] == rest[k];
        assert rows[m + 1] == rest[k];
      }
    }
  }

  /** The progress rows `DELETE FROM progress_log WHERE habit_id = ?` leaves. */
  function Unlinked(rows: seq<ProgressRow>, ref: HabitRef): (r: seq<ProgressRow>)
    ensures forall e :: e in r <==> e in rows && e.habit != ref
    ensures CountFor(r, ref) == 0
  {
    Filter(rows, (e: ProgressRow) => e.habit != ref)
  }

  /** The habit rows `DELETE FROM habits WHERE id = ?` leaves, in their
      original order. */
  function OtherHabits(rows: seq<HabitRow>, ref: HabitRef): (r: seq<HabitRow>)
    ensures forall h :: h in r <==> h in rows && RowId(h.id) != ref
    ensures HabitIdsDistinct(rows) ==> HabitIdsDistinct(r)
    ensures NamesDistinct(rows) ==> NamesDistinct(r)
  {
    FilterKeepsDistinct(rows, HabitId, (h: HabitRow) => RowId(h.id) != ref);
    FilterKeepsDistinct(rows, HabitName, (h: HabitRow) => RowId(h.id) != ref);
    Filter(rows, (h: HabitRow) => RowId(h.id) != ref)
  }

  /** When no row has the id, deleting by it leaves the rows as they were. */
  lemma OtherHabitsKeepsAll(rows: seq<HabitRow>, ref: HabitRef)
    requires forall h :: h in rows ==> RowId(h.id) != ref
    ensures OtherHabits(rows, ref) == rows
  {
    FilterKeepsAll(rows, (h: HabitRow) => RowId(h.id) != ref);
  }

  /** Unlinking a log with one more row unlinks that row on its own. */
  lemma UnlinkedAppend(rows: seq<ProgressRow>, e: ProgressRow, ref: HabitRef)
    ensures Unlinked(rows + [e], ref) == Unlinked(rows, ref) + (if e.habit != ref then [e] else [])
  {
    FilterAppend(rows, e, (e: ProgressRow) => e.habit != ref);
  }

  /** Unlinking twice is unlinking once. */
  lemma UnlinkedIdempotent(rows: seq<ProgressRow>, ref: HabitRef)
    ensures Unlinked(Unlinked(rows, ref), ref) == Unlinked(rows, ref)
  {
    FilterKeepsAll(Unlinked(rows, ref), (e: ProgressRow) => e.habit != ref);
  }
}

=== FILE: streak.dfy ===
/**
 The longest-streak rule shared by both copies of the analyser
 (analyse.py and Project/analyse.py), on a sequence of timestamps taken in
 the order given.

 A run is a segment of the sequence in which every adjacent pair is exactly
 one whole day apart (`NextDay`). Any other gap, including two stamps less
 than 24 hours apart on the same or on neighbouring calendar days, ends the
 run. The streak is the length of the longest run.
 */
module Streak {
  import opened Timestamps

  function Max(a: nat, b: nat): nat
  {
    if a < b then b else a
  }

  /** Every adjacent pair of `ts[lo..hi]` is one whole day apart. */
  ghost predicate Chained(ts: seq<Timestamp>, lo: int, hi: int)
    requires 0 <= lo <= hi <= |ts|
  {
    forall k :: lo < k < hi ==> NextDay(ts[k - 1], ts[k])
  }

  /** `n` is the length of a longest chained segment of `ts` (0 when `ts` is
      empty): some chained segment is that long and none is longer. */
  ghost predicate IsLongestRun(ts: seq<Timestamp>, n: nat)
  {
    && (|ts| == 0 ==> n == 0)
    && (|ts| > 0 ==> exists lo, hi :: 0 <= lo < hi <= |ts| && hi - lo == n && Chained(ts, lo, hi))
    && (forall lo, hi :: 0 <= lo < hi <= |ts| && Chained(ts, lo, hi) ==> hi - lo <= n)
  }

  /** Length of the run that ends at the last timestamp. */
  function TrailingRun(ts: seq<Timestamp>): (r: nat)
    ensures r == 0 <==> |ts| == 0
    ensures r <= |ts|
    decreases |ts|
  {
    if |ts| == 0 then 0
    else if |ts| == 1 then 1
    else if NextDay(ts[|ts| - 2], ts[|ts| - 1]) then TrailingRun(ts[..|ts| - 1]) + 1
    else 1
  }

  /** Recursive reference definition of the streak: the longer of the best run
      before the last timestamp and the run ending at it. */
  function LongestRun(ts: seq<Timestamp>): (r: nat)
    ensures |ts| == 0 ==> r == 0
    ensures |ts| > 0 ==> 1 <= r <= |ts|
    ensures TrailingRun(ts) <= r
    decreases |ts|
  {
    if |ts| == 0 then 0
    else Max(LongestRun(ts[..|ts| - 1]), TrailingRun(ts))
  }

  /** The run ending at the last timestamp is chained, and no chained segment
      ending there is longer. */
  lemma {:induction false} TrailingRunIsLongestSuffix(ts: seq<Timestamp>)
    requires |ts| > 0
    ensures Chained(ts, |ts| - TrailingRun(ts), |ts|)
    ensures forall lo :: 0 <= lo < |ts| && Chained(ts, lo, |ts|) ==> |ts| - lo <= TrailingRun(ts)
    decreases |ts|
  {
    var n := |ts|;
    if n > 1 {
      var p := ts[..n - 1];
      if NextDay(ts[n - 2], ts[n - 1]) {
        TrailingRunIsLongestSuffix(p);
        var t := TrailingRun(p);
        assert Chained(p, n - 1 - t, n - 1);
        forall k | n - 1 - t < k < n
          ensures NextDay(ts[k - 1], ts[k])
        {
          if k < n - 1 {
            assert p[k - 1] == ts[k - 1] && p[k] == ts[k];
          }
        }
        forall lo | 0 <= lo < n && Chained(ts, lo, n)
          ensures n - lo <= TrailingRun(ts)
        {
          if lo < n - 1 {
            forall k | lo < k < n - 1
              ensures NextDay(p[k - 1], p[k])
            {
              assert NextDay(ts[k - 1], ts[k]);
            }
            assert Chained(p, lo, n - 1);
          }
        }
      } else {
        forall lo | 0 <= lo < n - 1
          ensures !Chained(ts, lo, n)
        {
          assert !NextDay(ts[(n - 1) - 1], ts[n - 1]);
        }
      }
    }
  }

  /** The recursive definition meets the direct one: `LongestRun` is the
      length of a longest segment whose adjacent pairs are one whole day apart. */
  lemma {:induction false} LongestRunIsLongestSegment(ts: seq<Timestamp>)
    ensures IsLongestRun(ts, LongestRun(ts))
    decreases |ts|
  {
    if |ts| > 0 {
      var n := |ts|;
      var p := ts[..n - 1];
      var t := TrailingRun(ts);
      TrailingRunIsLongestSuffix(ts);
      LongestRunIsLongestSegment(p);
      if LongestRun(p) >= t {
        var lo, hi :| 0 <= lo < hi <= n - 1 && hi - lo == LongestRun(p) && Chained(p, lo, hi);
        forall k | lo < k < hi
          ensures NextDay(ts[k - 1], ts[k])
        {
          assert p[k - 1] == ts[k - 1] && p[k] == ts[k];
        }
        assert Chained(ts, lo, hi);
      } else {
        assert Chained(ts, n - t, n);
      }
      forall lo, hi | 0 <= lo < hi <= n && Chained(ts, lo, hi)
        ensures hi - lo <= LongestRun(ts)
      {
        if hi < n {
          forall k | lo < k < hi
            ensures NextDay(p[k - 1], p[k])
          {
            assert NextDay(ts[k - 1], ts[k]);
          }
          assert Chained(p, lo, hi);
        }
      }
    }
  }

  /** The characterisation fixes the value: any `n` meeting it is `LongestRun`. */
  lemma LongestRunUnique(ts: seq<Timestamp>, n: nat)
    requires IsLongestRun(ts, n)
    ensures n == LongestRun(ts)
  {
    LongestRunIsLongestSegment(ts);
    if |ts| > 0 {
      var lo, hi :| 0 <= lo < hi <= |ts| && hi - lo == n && Chained(ts, lo, hi);
      var lo', hi' :| 0 <= lo' < hi' <= |ts| && hi' - lo' == LongestRun(ts) && Chained(ts, lo', hi');
    }
  }

  /** The pairwise walk of `compute_longest_streak` over timestamps in the
      order given: a pair one whole day apart grows the current run, any other
      pair records it and restarts it at 1, and the final run is counted. */
  method LongestStreakOf(dates: seq<Timestamp>) returns (longest: nat)
    ensures longest == LongestRun(dates)
    ensures IsLongestRun(dates, longest)
  {
    if |dates| == 0 {
      LongestRunIsLongestSegment(dates);
      return 0;
    }
    var maxStreak: nat := 1;
    var currentStreak: nat := 1;
    var i := 1;
    assert dates[..1][..0] == [];
    while i < |dates|
      invariant 1 <= i <= |dates|
      invariant 1 <= currentStreak
      invariant currentStreak == TrailingRun(dates[..i])
      invariant Max(maxStreak, currentStreak) == LongestRun(dates[..i])
    {
      assert dates[..i + 1][..i] == dates[..i];
      if WholeDays(dates[i - 1], dates[i]) == 1 {
        currentStreak := currentStreak + 1;
      } else {
        maxStreak := Max(maxStreak, currentStreak);
        currentStreak := 1;
      }
      i := i + 1;
    }
    assert dates[..i] == dates;
    longest := Max(maxStreak, currentStreak);
    LongestRunIsLongestSegment(dates);
  }

  /** A pair that is not one whole day apart resets the run: the run ending
      at the last stamp of `a + b` is the run of `b`. */
  lemma {:induction false} TrailingRunAfterBreak(a: seq<Timestamp>, b: seq<Timestamp>)
    requires |a| > 0 && |b| > 0
    requires !NextDay(a[|a| - 1], b[0])
    ensures TrailingRun(a + b) == TrailingRun(b)
    decreases |b|
  {
    var ab := a + b;
    var n := |ab|;
    if |b| > 1 {
      var b' := b[..|b| - 1];
      assert ab[..n - 1] == a + b';
      assert ab[n - 2] == b[|b| - 2] && ab[n - 1] == b[|b| - 1];
      assert b'[|b'| - 1] == b[|b| - 2];
      TrailingRunAfterBreak(a, b');
      assert b[..|b| - 1] == b';
    } else {
      assert ab[n - 2] == a[|a| - 1] && ab[n - 1] == b[0];
    }
  }

  /** A break splits the streak: the streak of the joined sequence is the
      larger streak of the two sides. */
  lemma {:induction false} BreakSplitsStreak(a: seq<Timestamp>, b: seq<Timestamp>)
    requires |a| > 0 && |b| > 0
    requires !NextDay(a[|a| - 1], b[0])
    ensures LongestRun(a + b) == Max(LongestRun(a), LongestRun(b))
    decreases |b|
  {
    var ab := a + b;
    var n := |ab|;
    TrailingRunAfterBreak(a, b);
    if |b| > 1 {
      var b' := b[..|b| - 1];
      assert ab[..n - 1] == a + b';
      assert b'[|b'| - 1] == b[|b| - 2];
      BreakSplitsStreak(a, b');
    } else {
      assert ab[..n - 1] == a;
      assert b[..0] == [];
    }
  }

  /** `n` timestamps spaced exactly 24 hours apart, starting at `start`. */
  function Daily(start: Timestamp, n: nat): (r: seq<Timestamp>)
    ensures |r| == n
  {
    seq(n, k => start + k * SecondsPerDay)
  }

  lemma {:induction false} DailyTrailingRun(start: Timestamp, n: nat)
    ensures TrailingRun(Daily(start, n)) == n
    decreases n
  {
    var d := Daily(start, n);
    if n > 1 {
      assert d[..n - 1] == Daily(start, n - 1);
      assert d[n - 1] - d[n - 2] == SecondsPerDay;
      DailyTrailingRun(start, n - 1);
    }
  }

  /** A habit completed at the same time on `n` consecutive days has streak `n`. */
  lemma DailyStreak(start: Timestamp, n: nat)
    ensures LongestRun(Daily(start, n)) == n
  {
    DailyTrailingRun(start, n);
  }

  /** Three completions, two on one day and the third the next morning, give a
      streak of 1: neither pair is 24 or more hours apart. */
  lemma SameDayRepeatResets()
    ensures LongestRun([10 * 3600, 18 * 3600, SecondsPerDay + 9 * 3600]) == 1
  {
    var ts := [10 * 3600, 18 * 3600, SecondsPerDay + 9 * 3600];
    assert !NextDay(ts[1], ts[2]);
    assert !NextDay(ts[0], ts[1]);
    BreakSplitsStreak([ts[0]], [ts[1]]);
    BreakSplitsStreak([ts[0], ts[1]], [ts[2]]);
    assert [ts[0]] + [ts[1]] == [ts[0], ts[1]];
    assert [ts[0], ts[1]] + [ts[2]] == ts;
  }

  /** Completions on days 1, 2, 5, 6 and 7 at one time of day: the later run
      of three beats the earlier run of two. */
  lemma GapBreaksRunExample()
    ensures LongestRun([SecondsPerDay, 2 * SecondsPerDay, 5 * SecondsPerDay, 6 * SecondsPerDay, 7 * SecondsPerDay]) == 3
  {
    var a := Daily(SecondsPerDay, 2);
    var b := Daily(5 * SecondsPerDay, 3);
    DailyStreak(SecondsPerDay, 2);
    DailyStreak(5 * SecondsPerDay, 3);
    BreakSplitsStreak(a, b);
    assert a + b == [SecondsPerDay, 2 * SecondsPerDay, 5 * SecondsPerDay, 6 * SecondsPerDay, 7 * SecondsPerDay];
  }

  /** Completions on days 1, 3, 4 and 5: the run still open at the end of
      the walk is the one counted. */
  lemma FinalRunCountedExample()
    ensures LongestRun([SecondsPerDay, 3 * SecondsPerDay, 4 * SecondsPerDay, 5 * SecondsPerDay]) == 3
  {
    var a := Daily(SecondsPerDay, 1);
    var b := Daily(3 * SecondsPerDay, 3);
    DailyStreak(SecondsPerDay, 1);
    DailyStreak(3 * SecondsPerDay, 3);
    BreakSplitsStreak(a, b);
    assert a + b == [SecondsPerDay, 3 * SecondsPerDay, 4 * SecondsPerDay, 5 * SecondsPerDay];
  }
}

=== FILE: timestamps.dfy ===
/**
 Completion timestamps and the two operations the streak analyser applies to
 them: the whole-day difference of two timestamps (Python's `timedelta.days`)
 and chronological sorting (Python's `sorted`).

 A timestamp is a count of seconds: the stored text has one-second resolution,
 so nothing finer than a second is ever compared.
 */
module Timestamps {

  type Timestamp = int

  const SecondsPerDay: int := 86400

  /** `(later - earlier).days`: the number of whole days in the difference,
      rounded towards minus infinity as `timedelta` normalises it. */
  function WholeDays(earlier: Timestamp, later: Timestamp): (d: int)
    ensures d * SecondsPerDay <= later - earlier < (d + 1) * SecondsPerDay
  {
    (later - earlier) / SecondsPerDay
  }

  /** The one condition under which the analyser extends a run. */
  predicate NextDay(earlier: Timestamp, later: Timestamp)
  {
    WholeDays(earlier, later) == 1
  }

  /** A pair extends a run exactly when the later stamp is at least 24 and
      less than 48 hours after the earlier one; the calendar plays no part. */
  lemma NextDayWindow(earlier: Timestamp, later: Timestamp)
    ensures NextDay(earlier, later) <==>
              earlier + SecondsPerDay <= later < earlier + 2 * SecondsPerDay
  {
  }

  predicate Sorted(s: seq<Timestamp>)
  {
    forall i, j :: 0 <= i < j < |s| ==> s[i] <= s[j]
  }

  /** Prefixing a lower bound keeps a sequence ascending. */
  lemma ConsSorted(x: Timestamp, s: seq<Timestamp>)
    requires Sorted(s)
    requires forall k :: 0 <= k < |s| ==> x <= s[k]
    ensures Sorted([x] + s)
  {
    var r := [x] + s;
    forall i, j | 0 <= i < j < |r|
      ensures r[i] <= r[j]
    {
      if i > 0 {
        assert r[i] == s[i - 1] && r[j] == s[j - 1];
      }
    }
  }

  /** Inserts `x` into an ascending sequence. */
  function Insert(x: Timestamp, s: seq<Timestamp>): (r: seq<Timestamp>)
    requires Sorted(s)
    ensures Sorted(r)
    ensures multiset(r) == multiset(s) + multiset{x}
    decreases |s|
  {
    if |s| == 0 then [x]
    else if x <= s[0] then
      ConsSorted(x, s);
      [x] + s
    else
      var rest := Insert(x, s[1..]);
      assert s == [s[0]] + s[1..];
      assert forall k :: 0 <= k < |rest| ==> s[0] <= rest[k] by {
        forall k | 0 <= k < |rest|
          ensures s[0] <= rest[k]
        {
          assert rest[k] in multiset(rest);
        }
      }
      ConsSorted(s[0], rest);
      [s[0]] + rest
  }

  /** Python's `sorted` on timestamps: an ascending permutation of the input. */
  function Sort(s: seq<Timestamp>): (r: seq<Timestamp>)
    ensures Sorted(r)
    ensures multiset(r) == multiset(s)
    decreases |s|
  {
    if |s| == 0 then []
    else
      assert s == [s[0]] + s[1..];
      Insert(s[0], Sort(s[1..]))
  }

  /** The first entry of an ascending sequence is at most any of its entries. */
  lemma SortedFirstIsLeast(a: seq<Timestamp>, x: Timestamp)
    requires Sorted(a)
    requires x in multiset(a)
    ensures |a| > 0 && a[0] <= x
  {
    assert x in a;
  }

  /** Dropping the first entry keeps a sequence ascending and removes one
      copy of that entry. */
  lemma SortedTail(a: seq<Timestamp>)
    requires Sorted(a) && |a| > 0
    ensures Sorted(a[1..])
    ensures multiset(a[1..]) == multiset(a) - multiset{a[0]}
  {
    assert a == [a[0]] + a[1..];
  }

  /** Two non-empty ascending sequences holding the same timestamps start
      alike and continue with ascending sequences holding the same timestamps. */
  lemma SortedSameHead(a: seq<Timestamp>, b: seq<Timestamp>)
    requires Sorted(a) && Sorted(b)
    requires multiset(a) == multiset(b)
    requires |a| > 0 && |b| > 0
    ensures a[0] == b[0]
    ensures Sorted(a[1..]) && Sorted(b[1..])
    ensures multiset(a[1..]) == multiset(b[1..])
  {
    SortedFirstIsLeast(a, b[0]);
    SortedFirstIsLeast(b, a[0]);
    SortedTail(a);
    SortedTail(b);
  }

  /** Two ascending sequences holding the same timestamps are equal: equal
      timestamps cannot be told apart, so a sorted order is unique. */
  lemma {:induction false} SortedUnique(a: seq<Timestamp>, b: seq<Timestamp>)
    requires Sorted(a) && Sorted(b)
    requires multiset(a) == multiset(b)
    ensures a == b
    decreases |a|
  {
    if |a| == 0 || |b| == 0 {
      assert |a| == |multiset(a)| == |multiset(b)| == |b|;
    } else {
      SortedSameHead(a, b);
      SortedUnique(a[1..], b[1..]);
      assert a == [a[0]] + a[1..];
      assert b == [b[0]] + b[1..];
    }
  }

  /** Sorting a sequence that is already ascending changes nothing. */
  lemma SortKeepsSorted(s: seq<Timestamp>)
    requires Sorted(s)
    ensures Sort(s) == s
  {
    SortedUnique(Sort(s), s);
  }

  /** Sorting forgets the order of its input: any two rearrangements of the
      same timestamps sort to the same sequence. */
  lemma SortIgnoresOrder(a: seq<Timestamp>, b: seq<Timestamp>)
    requires multiset(a) == multiset(b)
    ensures Sort(a) == Sort(b)
  {
    SortedUnique(Sort(a), Sort(b));
  }
}
